=== FILE: README.md ===
# Library checkout bookkeeping, modelled in Dafny

This project models the loan bookkeeping of a small library web application. Members browse a catalogue of books and check copies out and back in. Staff manage the inventory and the loan records. The model covers these parts:

- the records (users, genres, books, loans) and the database constraints on them;
- the two atomic transactions, **checkout** (create an active loan and take one copy off the shelf) and **return** (close the loan, stamp its return time and put the copy back);
- the request handlers that decide around those transactions: the member's checkout and return, the staff's loan assignment and forced return, the `can_checkout` flag on the book page, the refusal to delete a book that has active loans, and the status filter and ordering of the loan list;
- the two staff forms' validation;
- the catalogue-seeding command, which fetches or creates genres and books from a static list.

The store is an immutable value with one map per table, plus a primary-key counter for each table the model inserts into. Every operation is a pure function from a store to a new store or to the exception the program raises at that point (for example the `ValueError` of `_execute_checkout`). A handler that runs its transaction inside `transaction.atomic()` returns the unchanged store when the transaction fails. The seeding command has no enclosing transaction, so the model keeps the rows it wrote before a failure.

Modules, one per concern of the program:

- `wrappers.dfy`: `Option` and `Result`.
- `queries.dfy`: scanning a table by key, listing its rows, lexicographic string order and insertion sort.
- `models.dfy`: the records, the schema constraints (`Valid`) and the default orderings.
- `transactions.dfy`: `Checkout` and `Return`.
- `forms.dfy`: the book form and the loan-assignment form.
- `views.dfy`: the handlers and a replay of arbitrary request sequences.
- `seeding.dfy`: the seeding command.

Two facts about the program shape what the model can promise:

- Loans are deleted with their book. A loan's book foreign key cascades (library/models.py:51-55). Deleting a book that has only returned loans therefore deletes those loans too, and `StaffDeleteBook` does the same.
- The schema enforces only `available >= 0`, through its check constraint (library/models.py:32-37). The bound `available <= total` is checked only by the staff book form (library/forms.py:27-31). The model keeps `available >= 0` in every reachable store. It shows that checkout and return preserve "shelf copies + active loans" for every book. It does not make `available <= total` a global invariant.

## Model

| member | source | states |
|---|---|---|
| Models.TitleOrderIsTotalPreorder | library/models.py:31 | ordering books by title is total and transitive, so the catalogue order is well defined |
| Models.NewestFirstIsTotalPreorder | library/models.py:61 | ordering loans by descending checkout time is total and transitive |
| Transactions.Checkout | library/views.py:44-65 | a missing book raises not-found; a book with no copies available fails with the no-copies error; a member who already has an active loan of the book fails with the duplicate error. Otherwise there is exactly one new loan for this member and book, under a fresh key. It has the column defaults of library/models.py:57-58: active, with no return time. That book has one copy fewer available, and every other book, loan, user and genre is unchanged |
| Transactions.Return | library/views.py:68-98 | the lookup succeeds only for an existing active loan that belongs to the scoping member when a scope is given; otherwise it reports not-found. On success that loan becomes inactive and stamped with the return time, its book gains one available copy, and nothing else changes |
| Transactions.CheckoutPreservesValid | library/views.py:56-64 | checkout keeps every schema constraint, including non-negative availability and at most one active loan per member and book |
| Transactions.ReturnPreservesValid | library/views.py:80-97 | return keeps every schema constraint |
| Transactions.OpenLoanValid | library/views.py:62-64 | the store a successful checkout writes, with one copy fewer and a new active loan under the next key, meets every constraint of the store invariant |
| Transactions.CloseLoanValid | library/views.py:92-97 | the store a successful return writes, with the loan closed and stamped and one copy more, meets every constraint of the store invariant |
| Transactions.CheckoutKeepsBalance | library/views.py:62-64 | the book's active loans gain exactly the created loan, and every book's available copies plus active loans stays the same |
| Transactions.ReturnKeepsBalance | library/views.py:92-97 | the book's active loans lose exactly the returned loan, and every book's available copies plus active loans stays the same |
| Transactions.CheckoutThenReturnRestoresBooks | library/views.py:56-97 | returning the loan a checkout created, by its member or unscoped, succeeds and restores every book exactly |
| Transactions.ReturnIsNotRepeatable | library/views.py:80-88 | once a loan is returned, any later return of it reports not-found |
| Forms.ValidateBookCopies | library/forms.py:23-32 | the comparison error is raised exactly when both counts are present and available exceeds total. It is skipped when either count is missing. The form is valid exactly when both counts are present and 0 <= available <= total |
| Forms.AcceptedCopiesAreConsistent | library/forms.py:27-31 | a book whose counts pass the form has non-negative counts and no more available than total copies |
| Forms.BookFormExamples | tests/test_forms.py:15-53 | available 5 of 2 is rejected with the comparison error; 3 of 5 and 3 of 3 are accepted |
| Forms.MemberChoices | library/forms.py:36-40 | only existing accounts are offered as members |
| Forms.BookChoices | library/forms.py:41-45 | only existing books are offered |
| Forms.ValidateAssignLoan | library/forms.py:35-63 | the form is valid exactly for an active non-staff member, a book with copies available, and no active loan between them. A zero-availability book is rejected as a choice. The duplicate error appears exactly for valid choices that already have an active loan. The form-wide availability error can never appear |
| Forms.AcceptedAssignmentChecksOut | library/forms.py:52-63 | every pair the assignment form accepts is one the checkout transaction accepts |
| Views.BookDetail | library/views.py:122-133 | a missing book is a 404; otherwise `has_active_loan` is true exactly when the user has an active loan of the book |
| Views.CanCheckoutIffCheckoutSucceeds | library/views.py:125-128 | `can_checkout` is true exactly when copies are available and the member has no active loan of the book, which is exactly when that member's checkout succeeds |
| Views.BookCheckout | library/views.py:136-154 | a failed checkout leaves the store unchanged. A 404 happens exactly for a missing book. The no-copies and duplicate-loan refusals are reported exactly when their guards fail. On success the checkout transaction is committed: the member holds an active loan of the book they did not hold before, and the book has one copy fewer available |
| Views.LoanReturn | library/views.py:157-169 | every failure is a 404 and leaves the store unchanged. Only the member's own active loan can be returned: another member's loan gives a 404 and nothing changes. On success the return transaction is committed: the loan is inactive and stamped, and its book has one more copy available |
| Views.StaffForceReturn | library/views.py:296-309 | staff return succeeds exactly for an existing active loan, whoever holds it. Failure is a 404 with the store unchanged. On success the return transaction is committed: the loan is inactive and stamped, and its book has one more copy available |
| Views.MemberAndStaffReturnAgree | library/views.py:80-82 | a member returning their own loan has the same effect as staff returning it |
| Views.StaffAssignLoan | library/views.py:272-293 | assignment succeeds exactly when the form is valid. The checkout's own refusals never surface, and a failure leaves the store unchanged. On success the checkout transaction is committed: the new loan is active, unreturned and for the chosen member and book, and the book has one copy fewer available |
| Views.StaffDeleteBook | library/views.py:232-240 | a missing book is a 404. A book with an active loan is refused and the store is unchanged. Otherwise exactly that book is removed, along with exactly the loans that referred to it, and the accounts and genres are unchanged |
| Views.StaffDeleteBookPreservesValid | library/models.py:51-55 | deleting a book, with its loans cascading, keeps every schema constraint, foreign keys included |
| Views.StaffLoanList | library/views.py:252-259 | status "active" lists only active loans and "returned" only inactive ones; each loan passing the filter is listed exactly once; the list is newest first |
| Views.BookList | library/views.py:116-119 | every book is listed exactly once, ordered by title |
| Views.ApplyPreservesValid | library/models.py:32-67 | every write request keeps every schema constraint and leaves the accounts unchanged |
| Views.ReachableStoresAreValid | library/models.py:32-67 | after any sequence of requests from a valid store, no book has negative availability and no member holds two active loans of one book |
| Seeding.GenresNamed | library/management/commands/populate_books.py:164 | the genre lookup by name returns only genres with that name, at most one under the unique name constraint, and every such genre |
| Seeding.UniqueNameMatchesOnce | library/models.py:9 | under the unique name constraint at most one genre carries a given name |
| Seeding.GetOrCreateGenre | library/management/commands/populate_books.py:163-165 | the result is a stored genre with the requested name; books, loans and users are untouched; under the unique name constraint the lookup never fails |
| Seeding.GetOrCreateGenreValid | library/management/commands/populate_books.py:164 | on a valid store, fetching or creating a genre keeps the store valid. It never alters existing genres, and it writes nothing when the name already exists |
| Seeding.ResolveGenres | library/management/commands/populate_books.py:161-166 | resolving an entry's genre names touches neither books, loans nor the counters |
| Seeding.ResolveGenresSound | library/management/commands/populate_books.py:161-166 | on a sound run, genre resolution never fails, keeps the store valid and the cache truthful, and never alters an existing genre. Every picked genre is stored, and every name has a stored genre |
| Seeding.ResolveGenresValid | library/management/commands/populate_books.py:161-166 | on a sound run, genre resolution never fails and keeps the store valid and the cache truthful |
| Seeding.GetOrCreateGenreStable | library/management/commands/populate_books.py:163-165 | with unique genre names, fetching or creating a genre never fails, keeps the names unique and never alters an existing genre |
| Seeding.ResolveGenresStep | library/management/commands/populate_books.py:162-166 | the first name resolves, from the cache or by fetch-or-create, to a genre with that name; the run stays consistent, and the rest of the names resolve from there |
| Seeding.ResolveGenresInOrder | library/management/commands/populate_books.py:160-166 | resolution appends exactly one genre per name, in the entry's order, after those already picked; the genre at each position carries the name at that position |
| Seeding.PickedAreNamed | library/models.py:9 | under unique genre names, the genres picked for a list of names are exactly the genres whose name is on the list |
| Seeding.ResolveGenresNoop | library/management/commands/populate_books.py:162-166 | when every name already has a genre, resolution writes nothing |
| Seeding.SeedEntry | library/management/commands/populate_books.py:160-185 | each processed entry is counted once, as created or skipped. A created book is added under the next key and takes its title, author and ISBN from the entry, with available copies equal to the entry's total copies; every other book is unchanged. A skipped entry leaves every book unchanged, its genres included. An entry whose book lookup or insert fails writes no book. A stopped run stays stopped |
| Seeding.SeedEntryCreates | library/management/commands/populate_books.py:179-181 | a created book carries exactly the genres whose names the entry lists |
| Seeding.SeedEntryFailureKeepsGenres | library/management/commands/populate_books.py:160-177 | when the book insert fails on a taken ISBN, the genres fetched or created for the entry stay: every genre name of the entry names a stored genre |
| Seeding.SeedEntrySkipsExisting | library/management/commands/populate_books.py:168-185 | an entry whose title and author already have a book never fails the book lookup. It is counted as skipped and leaves every book as it was, whether or not its genre names already existed |
| Seeding.PopulateBooks | library/management/commands/populate_books.py:155-191 | the loop computes the fold over the entries; when it completes, created + skipped equals the number of entries, and never exceeds it |
| Seeding.StoppedRunStays | library/management/commands/populate_books.py:160-185 | once an exception stops the run, later entries are not processed |
| Seeding.InsertBookValid | library/management/commands/populate_books.py:169-177 | inserting a book under a fresh key with an unused ISBN, stored genres and non-negative copies keeps every schema constraint |
| Seeding.SeedEntrySound | library/management/commands/populate_books.py:168-185 | processing an entry keeps the store valid, including ISBN uniqueness, and never alters an existing genre |
| Seeding.SeedFromSound | library/management/commands/populate_books.py:160-185 | a whole run keeps the store valid |
| Seeding.SeedEntryEstablishes | library/management/commands/populate_books.py:168-185 | after an entry is processed without failure, exactly one book has its title and author and each of its genres exists; previously seeded entries stay seeded |
| Seeding.SeedFromEstablishes | library/management/commands/populate_books.py:160-185 | after a run completes, every entry of the list is seeded |
| Seeding.SeedEntryNoop | library/management/commands/populate_books.py:169-185 | an already seeded entry is only counted as skipped and writes nothing |
| Seeding.SeedFromNoop | library/management/commands/populate_books.py:160-185 | a run over seeded entries creates nothing, skips every entry and writes nothing |
| Seeding.SeedingIsIdempotent | library/management/commands/populate_books.py:155-185 | after a completed run on a valid store, a second run creates nothing, skips every entry and leaves the store as it was; each genre name of the list names exactly one genre |

## Left out

- Row locking (`select_for_update`) and concurrency. Each checkout or return is one atomic step, and the `IntegrityError` fallbacks (library/views.py:149-151, 282-287) are not modelled because only concurrent requests can reach them.
- HTTP plumbing: rendering, flash messages, redirects, the POST-only checks, URL routing, and the post-login redirect. Handler outcomes are reduced to success, 404, or a refusal with its reason.
- Authentication and permissions: registration, `login_required` and the staff-only mixin. A member acting for themself is a user id of the store. The staff handlers assume a staff caller.
- The admin configuration, the staff user list with its loan-count aggregate, and the member's own loan page.
- Real clocks: a timestamp is a natural number passed in by the caller. `Meta.ordering` leaves the order of loans with equal checkout times unspecified; the model keeps ascending key order among equal times.
- String collation: title order is code-point lexicographic, while the database orders by its own collation.
- Integer width: copy counts are unbounded integers. The upper bound of the unsigned database column is not modelled.
- Staff book create and edit: only the copy-count validation of the book form is modelled. Text lengths (title, author, 13-character ISBN, 100-character genre name) and the form's ISBN-uniqueness check are not modelled. Edits can break the shelf-plus-loans balance, so that balance is stated only as preserved by checkout and return.
- The seeding command's console output and its literal catalogue data. The entry list is a parameter.
- The column defaults of a book (one copy in total, one available; library/models.py:26-27) are not modelled. No modelled path creates a book from them: the seeding command sets both counts, and the staff book form requires both.
- Forms.MemberChoices: the contract states only that the choices are existing accounts. The full characterization, active non-staff accounts, is stated by `Forms.ValidateAssignLoan`.
- Forms.BookChoices: the contract states only that the choices are existing books. The full characterization, books with copies available, is stated by `Forms.ValidateAssignLoan`.
- Transactions.Return: when the loan's book is missing, the return raises not-found for the book. The views turn that into a 404, where `loan_return_view` and `StaffForceReturnView.post` would answer with a server error. Foreign keys make this case unreachable in a valid store.

=== FILE: forms.dfy ===
/**
  The two staff forms whose validation the core depends on: the book form's
  copy-count check and the loan-assignment form's choices and checks.
  A form's validation is modelled as the set of errors it reports; the form
  is valid exactly when that set is empty.
 */
module Forms {
  import opened Wrappers
  import opened Models
  import Transactions

  /** Which of the book form's two copy fields an error is attached to. */
  datatype CopyField = TotalCopies | AvailableCopies

  datatype BookFormError =
    | Required(field: CopyField)      // the field was left empty
    | BelowMinimum(field: CopyField)  // an unsigned-integer field given a negative value
    | AvailableExceedsTotal           // the form-wide check of `clean`

  /** Field-level cleaning of one copy count: the value, or the field's error. */
  function CleanCopies(field: CopyField, raw: Option<int>): Result<nat, BookFormError>
  {
    match raw
    case None => Err(Required(field))
    case Some(v) => if v < 0 then Err(BelowMinimum(field)) else Ok(v)
  }

  /** Validates the two copy counts of the book form. Each field is cleaned
      on its own first; the form-wide comparison runs only when both
      fields produced a value. */
  function ValidateBookCopies(total: Option<int>, available: Option<int>): (errors: set<BookFormError>)
    // the comparison rejects more available copies than owned copies ...
    ensures AvailableExceedsTotal in errors <==>
      total.Some? && available.Some? && total.value >= 0 && available.value >= 0 && available.value > total.value
    // ... and is skipped when either count is missing
    ensures total.None? || available.None? ==> AvailableExceedsTotal !in errors
    ensures total.None? ==> Required(TotalCopies) in errors
    ensures available.None? ==> Required(AvailableCopies) in errors
    // valid exactly when both counts are present, non-negative and ordered
    ensures errors == {} <==>
      total.Some? && available.Some? && 0 <= available.value <= total.value
  {
    var t := CleanCopies(TotalCopies, total);
    var a := CleanCopies(AvailableCopies, available);
    var fieldErrors := (if t.Err? then {t.error} else {}) + (if a.Err? then {a.error} else {});
    if t.Ok? && a.Ok? && a.value > t.value then fieldErrors + {AvailableExceedsTotal}
    else fieldErrors
  }

  /** A book saved through a valid form satisfies the copy constraints and
      never has more copies available than it owns. */
  lemma AcceptedCopiesAreConsistent(b: Book)
    requires ValidateBookCopies(Some(b.totalCopies), Some(b.availableCopies)) == {}
    ensures b.totalCopies >= 0 && b.availableCopies >= 0
    ensures b.availableCopies <= b.totalCopies
  {
  }

  /** The form's behaviour on the three cases its tests exercise. */
  lemma BookFormExamples()
    ensures ValidateBookCopies(Some(2), Some(5)) == {AvailableExceedsTotal}
    ensures ValidateBookCopies(Some(5), Some(3)) == {}
    ensures ValidateBookCopies(Some(3), Some(3)) == {}
  {
  }

  /** The members staff may assign a loan to: active accounts without staff rights. */
  function MemberChoices(s: Store): (r: set<UserId>)
    ensures r <= s.users.Keys
  {
    set id | id in s.users && !s.users[id].isStaff && s.users[id].isActive
  }

  /** The books staff may assign: those with a copy on the shelf. */
  function BookChoices(s: Store): (r: set<BookId>)
    ensures r <= s.books.Keys
  {
    set id | id in s.books && s.books[id].availableCopies > 0
  }

  datatype AssignFormError =
    | MemberRequired
    | MemberInvalidChoice
    | BookRequired
    | BookInvalidChoice
    | BookUnavailable        // 'This book has no available copies.'
    | DuplicateActiveLoan    // 'This member already has an active loan for this book.'

  /** Validates the loan-assignment form against the current store. Each
      choice field accepts only a key from its choice set; the form-wide
      checks run only when both fields produced a record. */
  function ValidateAssignLoan(s: Store, member: Option<UserId>, book: Option<BookId>): (errors: set<AssignFormError>)
    // a pair that passes is an eligible member, an available book, and no open loan between them
    ensures errors == {} <==>
      && member.Some? && member.value in s.users && !s.users[member.value].isStaff && s.users[member.value].isActive
      && book.Some? && book.value in s.books && s.books[book.value].availableCopies > 0
      && !HasActiveLoan(s.loans, member.value, book.value)
    // a book with nothing on the shelf is refused as a choice
    ensures book.Some? && book.value in s.books && s.books[book.value].availableCopies <= 0 ==>
      BookInvalidChoice in errors
    ensures DuplicateActiveLoan in errors <==>
      member.Some? && member.value in MemberChoices(s) && book.Some? && book.value in BookChoices(s) &&
      HasActiveLoan(s.loans, member.value, book.value)
    // the form-wide availability check never fires: the book field already filtered on it
    ensures BookUnavailable !in errors
  {
    var memberErrors :=
      if member.None? then {MemberRequired}
      else if member.value !in MemberChoices(s) then {MemberInvalidChoice}
      else {};
    var bookErrors :=
      if book.None? then {BookRequired}
      else if book.value !in BookChoices(s) then {BookInvalidChoice}
      else {};
    var formErrors :=
      if memberErrors == {} && bookErrors == {} then
        if s.books[book.value].availableCopies <= 0 then {BookUnavailable}
        else if HasActiveLoan(s.loans, member.value, book.value) then {DuplicateActiveLoan}
        else {}
      else {};
    memberErrors + bookErrors + formErrors
  }

  /** A pair the assignment form accepts is one the checkout transaction
      accepts, so staff assignment never reaches the transaction's own errors. */
  lemma AcceptedAssignmentChecksOut(s: Store, member: UserId, book: BookId, now: Time)
    requires ValidateAssignLoan(s, Some(member), Some(book)) == {}
    ensures Transactions.Checkout(s, member, book, now).Ok?
  {
  }
}

=== FILE: models.dfy ===
/**
  The library's records (users, genres, books, loans), the store that holds
  them, and the database constraints every reachable store satisfies.
  Records are immutable values; a table is a map from primary key to record.
 */
module Models {
  import opened Wrappers
  import opened Queries

  type UserId = nat
  type GenreId = nat
  type BookId = nat
  type LoanId = nat

  /** A timestamp. The core only stores and compares timestamps. */
  type Time = nat

  /** The two flags of an account that the core looks at. */
  datatype User = User(isStaff: bool, isActive: bool)

  /** A genre tag; its name is unique across genres. */
  datatype Genre = Genre(name: string)

  /** A catalogue title. Copy counts are integers so that the
      non-negativity constraint is a property to maintain, not a type. */
  datatype Book = Book(
    title: string,
    author: string,
    isbn: Option<string>,
    genres: set<GenreId>,
    totalCopies: int,
    availableCopies: int
  )

  /** One lending of a book to a member. */
  datatype Loan = Loan(
    member: UserId,
    book: BookId,
    checkedOutAt: Time,
    returnedAt: Option<Time>,
    isActive: bool
  )

  /** The database: one map per table plus the primary-key sequences. */
  datatype Store = Store(
    users: map<UserId, User>,
    genres: map<GenreId, Genre>,
    books: map<BookId, Book>,
    loans: map<LoanId, Loan>,
    nextGenreId: nat,
    nextBookId: nat,
    nextLoanId: nat
  )

  /** A loan row created with only a member and a book: active, not returned. */
  function NewLoan(member: UserId, book: BookId, now: Time): Loan
  {
    Loan(member, book, now, None, true)
  }

  /** Whether `member` currently holds an active loan of `book`. */
  predicate HasActiveLoan(loans: map<LoanId, Loan>, member: UserId, book: BookId)
  {
    exists id :: id in loans && loans[id].member == member && loans[id].book == book && loans[id].isActive
  }

  /** The active loans of one book. */
  function ActiveLoansOf(loans: map<LoanId, Loan>, book: BookId): set<LoanId>
  {
    set id | id in loans && loans[id].book == book && loans[id].isActive
  }

  /** Copies of a book either on the shelf or out on an active loan.
      Checkout and return move a copy between the two and keep the sum. */
  function Balance(s: Store, book: BookId): int
    requires book in s.books
  {
    s.books[book].availableCopies + |ActiveLoansOf(s.loans, book)|
  }

  /** The check constraint on `available_copies`, and the unsigned column of `total_copies`. */
  predicate CopiesNonNegative(books: map<BookId, Book>)
  {
    forall id :: id in books ==> books[id].availableCopies >= 0 && books[id].totalCopies >= 0
  }

  /** The partial unique constraint: at most one active loan per (member, book). */
  predicate UniqueActiveLoans(loans: map<LoanId, Loan>)
  {
    forall a, b ::
      (a in loans && b in loans && loans[a].isActive && loans[b].isActive &&
       loans[a].member == loans[b].member && loans[a].book == loans[b].book) ==> a == b
  }

  /** ISBN is unique among the books that have one (NULLs never clash). */
  predicate IsbnUnique(books: map<BookId, Book>)
  {
    forall a, b :: a in books && b in books && books[a].isbn.Some? && books[a].isbn == books[b].isbn ==> a == b
  }

  /** Genre names are unique. */
  predicate GenreNamesUnique(genres: map<GenreId, Genre>)
  {
    forall a, b :: a in genres && b in genres && genres[a].name == genres[b].name ==> a == b
  }

  /** A loan is active exactly while it has no return time. */
  predicate LoanShapes(loans: map<LoanId, Loan>)
  {
    forall id :: id in loans ==> (loans[id].isActive <==> loans[id].returnedAt.None?)
  }

  /** Foreign keys resolve, and every primary key was drawn from its sequence. */
  predicate KeysConsistent(s: Store)
  {
    && (forall id :: id in s.genres ==> id < s.nextGenreId)
    && (forall id :: id in s.books ==> id < s.nextBookId && s.books[id].genres <= s.genres.Keys)
    && (forall id :: id in s.loans ==> id < s.nextLoanId && s.loans[id].book in s.books && s.loans[id].member in s.users)
  }

  /** The store invariant: the schema's own constraints (non-negative
      copies, unique active loans, unique ISBNs and genre names, foreign
      keys) together with two facts the handlers maintain, namely the
      active-flag and return-time agreement and keys drawn below their
      sequence counters. */
  predicate Valid(s: Store)
  {
    && CopiesNonNegative(s.books)
    && UniqueActiveLoans(s.loans)
    && IsbnUnique(s.books)
    && GenreNamesUnique(s.genres)
    && LoanShapes(s.loans)
    && KeysConsistent(s)
  }

  /** Default ordering of book rows: by title. */
  predicate TitleOrder(a: (BookId, Book), b: (BookId, Book))
  {
    StrLe(a.1.title, b.1.title)
  }

  /** Default ordering of loan rows: most recently checked out first. */
  predicate NewestFirst(a: (LoanId, Loan), b: (LoanId, Loan))
  {
    a.1.checkedOutAt >= b.1.checkedOutAt
  }

  lemma TitleOrderIsTotalPreorder()
    ensures TotalPreorder(TitleOrder)
  {
    forall a, b
      ensures TitleOrder(a, b) || TitleOrder(b, a)
    {
      StrLeTotal(a.1.title, b.1.title);
    }
    forall a, b, c | TitleOrder(a, b) && TitleOrder(b, c)
      ensures TitleOrder(a, c)
    {
      StrLeTransitive(a.1.title, b.1.title, c.1.title);
    }
  }

  lemma NewestFirstIsTotalPreorder()
    ensures TotalPreorder(NewestFirst)
  {
  }
}

=== FILE: queries.dfy ===
/**
  Queries over tables keyed by integer primary keys: the keys whose rows
  satisfy a filter, the rows listed by key, a lexicographic order on
  strings and an insertion sort by any total preorder.
 */
module Queries {

  /** Lexicographic order on strings, character by character. */
  predicate StrLe(a: string, b: string)
    decreases |a|
  {
    |a| == 0 || (|b| > 0 && (a[0] < b[0] || (a[0] == b[0] && StrLe(a[1..], b[1..]))))
  }

  lemma {:induction false} StrLeTotal(a: string, b: string)
    ensures StrLe(a, b) || StrLe(b, a)
    decreases |a|
  {
    if |a| > 0 && |b| > 0 && a[0] == b[0] {
      StrLeTotal(a[1..], b[1..]);
    }
  }

  lemma {:induction false} StrLeTransitive(a: string, b: string, c: string)
    requires StrLe(a, b) && StrLe(b, c)
    ensures StrLe(a, c)
    decreases |a|
  {
    if |a| > 0 && a[0] == b[0] && b[0] == c[0] {
      StrLeTransitive(a[1..], b[1..], c[1..]);
    }
  }

  ghost predicate TotalPreorder<T(!new)>(le: (T, T) -> bool)
  {
    && (forall a, b :: le(a, b) || le(b, a))
    && (forall a, b, c :: le(a, b) && le(b, c) ==> le(a, c))
  }

  predicate SortedBy<T>(s: seq<T>, le: (T, T) -> bool)
  {
    forall i, j :: 0 <= i < j < |s| ==> le(s[i], s[j])
  }

  /** The rows of a table whose keys lie below `n`, in ascending key order. */
  function Rows<V>(m: map<nat, V>, n: nat): seq<(nat, V)>
  {
    if n == 0 then []
    else Rows(m, n - 1) + (if n - 1 in m then [(n - 1, m[n - 1])] else [])
  }

  /** The keys below `n` whose rows satisfy `p`, in ascending order. */
  function KeysWhere<V>(m: map<nat, V>, n: nat, p: V -> bool): (r: seq<nat>)
    ensures forall i :: 0 <= i < |r| ==> r[i] in m && r[i] < n && p(m[r[i]])
    ensures forall i, j :: 0 <= i < j < |r| ==> r[i] < r[j]
    ensures forall k :: k in m && k < n && p(m[k]) ==> k in r
  {
    if n == 0 then []
    else
      var prefix := KeysWhere(m, n - 1, p);
      var last := if n - 1 in m && p(m[n - 1]) then [n - 1] else [];
      assert forall i :: 0 <= i < |prefix + last| ==> (prefix + last)[i] in prefix || (prefix + last)[i] in last;
      prefix + last
  }

  /** `r` holds exactly the rows of `m` keyed below `n`, by ascending key. */
  ghost predicate ListsRowsBelow<V>(m: map<nat, V>, n: nat, r: seq<(nat, V)>)
  {
    && (forall i :: 0 <= i < |r| ==> r[i].0 in m && r[i].1 == m[r[i].0] && r[i].0 < n)
    && (forall i, j :: 0 <= i < j < |r| ==> r[i].0 < r[j].0)
    && (forall k :: k in m && k < n ==> (k, m[k]) in r)
  }

  /** `Rows(m, n)` lists exactly the rows of `m` keyed below `n`, each once,
      by ascending key. */
  lemma {:induction false} RowsListsTable<V>(m: map<nat, V>, n: nat)
    ensures ListsRowsBelow(m, n, Rows(m, n))
  {
    if n > 0 {
      RowsListsTable(m, n - 1);
      var prefix := Rows(m, n - 1);
      var row := if n - 1 in m then [(n - 1, m[n - 1])] else [];
      var r := Rows(m, n);
      assert r == prefix + row;
      forall i | 0 <= i < |r|
        ensures r[i].0 in m && r[i].1 == m[r[i].0] && r[i].0 < n
      {
        if i < |prefix| {
          assert r[i] == prefix[i];
          assert prefix[i].0 in m;
        } else {
          assert n - 1 in m && r[i] == (n - 1, m[n - 1]);
        }
      }
      forall k | k in m && k < n
        ensures (k, m[k]) in r
      {
        if k < n - 1 {
          var i :| 0 <= i < |prefix| && prefix[i] == (k, m[k]);
          assert r[i] == prefix[i];
        } else {
          assert r[|r| - 1] == (k, m[k]);
        }
      }
    }
  }

  /** A sequence whose keys strictly increase holds every row at most once. */
  lemma {:induction false} AscendingKeysAreDistinct<V>(s: seq<(nat, V)>)
    requires forall i, j :: 0 <= i < j < |s| ==> s[i].0 < s[j].0
    ensures forall x :: multiset(s)[x] <= 1
  {
    if |s| > 0 {
      AscendingKeysAreDistinct(s[1..]);
      assert s == [s[0]] + s[1..];
      assert s[0] !in s[1..] by {
        forall i | 0 <= i < |s[1..]|
          ensures s[1..][i] != s[0]
        {
          assert s[1..][i] == s[i + 1];
        }
      }
    }
  }

  /** Inserts `x` into the sorted `s` before the first element it does not follow. */
  function Insert<T(!new)>(x: T, s: seq<T>, le: (T, T) -> bool): (r: seq<T>)
    requires TotalPreorder(le)
    requires SortedBy(s, le)
    ensures multiset(r) == multiset(s) + multiset{x}
    ensures SortedBy(r, le)
  {
    if |s| == 0 then [x]
    else if le(x, s[0]) then [x] + s
    else
      var rest := Insert(x, s[1..], le);
      assert s == [s[0]] + s[1..];
      assert forall y :: y in rest ==> y in multiset(s[1..]) + multiset{x};
      assert forall i :: 0 <= i < |rest| ==> le(s[0], rest[i]) by {
        forall i | 0 <= i < |rest|
          ensures le(s[0], rest[i])
        {
          assert rest[i] in multiset(s[1..]) + multiset{x};
          if rest[i] in multiset(s[1..]) {
            var j :| 0 <= j < |s[1..]| && s[1..][j] == rest[i];
            assert s[j + 1] == rest[i];
          }
        }
      }
      [s[0]] + rest
  }

  /** Insertion sort: a permutation of `s` ordered by `le`. */
  function Sort<T(!new)>(s: seq<T>, le: (T, T) -> bool): (r: seq<T>)
    requires TotalPreorder(le)
    ensures multiset(r) == multiset(s)
    ensures SortedBy(r, le)
  {
    if |s| == 0 then []
    else
      assert s == [s[0]] + s[1..];
      Insert(s[0], Sort(s[1..], le), le)
  }

  /** The rows of a table keyed below `n`, ordered by `le`: each listed
      row is a row of the table, and each row of the table keyed below `n`
      is listed exactly once. */
  function SortedRows<V(!new)>(m: map<nat, V>, n: nat, le: ((nat, V), (nat, V)) -> bool): (r: seq<(nat, V)>)
    requires TotalPreorder(le)
    ensures forall i :: 0 <= i < |r| ==> r[i].0 in m && r[i].1 == m[r[i].0]
    ensures forall k :: k in m && k < n ==> multiset(r)[(k, m[k])] == 1
    ensures forall x :: multiset(r)[x] <= 1
    ensures SortedBy(r, le)
  {
    var rows := Rows(m, n);
    RowsListsTable(m, n);
    AscendingKeysAreDistinct(rows);
    var r := Sort(rows, le);
    forall i | 0 <= i < |r|
      ensures r[i].0 in m && r[i].1 == m[r[i].0]
    {
      assert r[i] in multiset(rows);
    }
    r
  }
}

=== FILE: seeding.dfy ===
/**
  The catalogue-seeding command: for each entry of a static list it
  fetches or creates the entry's genres (remembering them in a per-run
  cache), then fetches or creates the book by (title, author). It counts
  the books it created and the entries it skipped because the book was
  already there. The command runs without an enclosing transaction, so
  when a lookup or an insert raises, the rows written before stay.
 */
module Seeding {
  import opened Wrappers
  import opened Queries
  import opened Models

  /** One entry of the static catalogue list. */
  datatype Entry = Entry(title: string, author: string, isbn: string, genres: seq<string>, totalCopies: nat)

  /** The exceptions a fetch-or-create can raise. */
  datatype SeedFailure =
    | MultipleGenresReturned  // more than one genre row with the name
    | MultipleBooksReturned   // more than one book row with the (title, author)
    | IsbnTaken               // the insert clashes with another book's ISBN

  /** The state of a run: the store, the name-to-genre cache, the two
      counters, and the exception that stopped the run, if any. */
  datatype Run = Run(
    store: Store,
    cache: map<string, GenreId>,
    created: nat,
    skipped: nat,
    failure: Option<SeedFailure>
  )

  function Start(s: Store): Run
  {
    Run(s, map[], 0, 0, None)
  }

  /** Every cached genre is a stored genre with the cached name. */
  predicate CacheSound(run: Run)
  {
    forall name :: name in run.cache ==>
      run.cache[name] in run.store.genres && run.store.genres[run.cache[name]].name == name
  }

  /** The genres named `name`. */
  function GenresNamed(s: Store, name: string): (r: seq<GenreId>)
    ensures forall i :: 0 <= i < |r| ==> r[i] in s.genres && s.genres[r[i]].name == name
    ensures GenreNamesUnique(s.genres) ==> |r| <= 1
    ensures KeysConsistent(s) ==> forall g :: g in s.genres && s.genres[g].name == name ==> g in r
  {
    var r := KeysWhere(s.genres, s.nextGenreId, (g: Genre) => g.name == name);
    if GenreNamesUnique(s.genres) then
      UniqueNameMatchesOnce(s.genres, name, r);
      r
    else r
  }

  /** Under the unique constraint, an ascending list of genres that all
      carry one name has at most one element. */
  lemma UniqueNameMatchesOnce(genres: map<GenreId, Genre>, name: string, r: seq<GenreId>)
    requires GenreNamesUnique(genres)
    requires forall i :: 0 <= i < |r| ==> r[i] in genres && genres[r[i]].name == name
    requires forall i, j :: 0 <= i < j < |r| ==> r[i] < r[j]
    ensures |r| <= 1
  {
    assert forall i :: 0 <= i < |r| ==> r[i] == r[0];
    assert |r| >= 2 ==> r[0] < r[1];
  }

  /** The books whose title and author are the given ones. */
  function BooksTitled(books: map<BookId, Book>, title: string, author: string): set<BookId>
  {
    set id | id in books && books[id].title == title && books[id].author == author
  }

  /** Whether some book already holds `isbn`. */
  predicate IsbnInUse(books: map<BookId, Book>, isbn: string)
  {
    exists id :: id in books && books[id].isbn == Some(isbn)
  }

  /** Fetches the genre named `name`, creating it when there is none. */
  function GetOrCreateGenre(s: Store, name: string): (r: Result<(Store, GenreId), SeedFailure>)
    ensures r.Ok? ==>
      && r.value.1 in r.value.0.genres && r.value.0.genres[r.value.1].name == name
      && r.value.0.books == s.books && r.value.0.loans == s.loans
      && r.value.0.users == s.users && r.value.0.nextBookId == s.nextBookId
    // under the unique constraint the fetch never finds two rows
    ensures GenreNamesUnique(s.genres) ==> r.Ok?
  {
    var found := GenresNamed(s, name);
    if |found| == 0 then
      var g := s.nextGenreId;
      Ok((s.(genres := s.genres[g := Genre(name)], nextGenreId := g + 1), g))
    else if |found| == 1 then Ok((s, found[0]))
    else Err(MultipleGenresReturned)
  }

  /** On a valid store, fetching or creating a genre keeps the store valid
      and the existing genres as they were, and fetches an existing genre
      without writing anything. */
  lemma GetOrCreateGenreValid(s: Store, name: string)
    requires Valid(s)
    ensures GetOrCreateGenre(s, name).Ok?
    ensures var s' := GetOrCreateGenre(s, name).value.0;
      && Valid(s')
      && (forall id :: id in s.genres ==> id in s'.genres && s'.genres[id] == s.genres[id])
      && ((exists g :: g in s.genres && s.genres[g].name == name) ==> s' == s)
  {
    var found := GenresNamed(s, name);
    if |found| == 0 {
      var s' := GetOrCreateGenre(s, name).value.0;
      assert forall g :: g in s.genres ==> s.genres[g].name != name;
      assert GenreNamesUnique(s'.genres);
    }
  }

  /** Resolves an entry's genre names in order, through the cache; `picked`
      collects the resolved genres. */
  function ResolveGenres(run: Run, names: seq<string>, picked: seq<GenreId>): (r: (Run, seq<GenreId>))
    requires run.failure.None?
    ensures r.0.store.books == run.store.books && r.0.store.loans == run.store.loans
    ensures r.0.store.users == run.store.users && r.0.store.nextBookId == run.store.nextBookId
    ensures r.0.created == run.created && r.0.skipped == run.skipped
    decreases |names|
  {
    if |names| == 0 then (run, picked)
    else
      var name := names[0];
      if name in run.cache then ResolveGenres(run, names[1..], picked + [run.cache[name]])
      else match GetOrCreateGenre(run.store, name)
        case Err(f) => (run.(failure := Some(f)), picked)
        case Ok(sg) =>
          ResolveGenres(run.(store := sg.0, cache := run.cache[name := sg.1]), names[1..], picked + [sg.1])
  }

  /** Resolving genres on a sound run never fails, keeps the store valid
      and the cache sound, only adds genres, and resolves every name to a
      stored genre of that name. */
  lemma ResolveGenresSound(run: Run, names: seq<string>, picked: seq<GenreId>)
    requires run.failure.None? && Valid(run.store) && CacheSound(run)
    requires forall i :: 0 <= i < |picked| ==> picked[i] in run.store.genres
    ensures var r := ResolveGenres(run, names, picked);
      && r.0.failure.None?
      && Valid(r.0.store)
      && CacheSound(r.0)
      && (forall id :: id in run.store.genres ==> id in r.0.store.genres && r.0.store.genres[id] == run.store.genres[id])
      && (forall i :: 0 <= i < |r.1| ==> r.1[i] in r.0.store.genres)
      && (forall name :: name in names ==> exists g :: g in r.0.store.genres && r.0.store.genres[g].name == name)
  {
    ResolveGenresValid(run, names, picked);
    ResolveGenresInOrder(run, names, picked);
    var r := ResolveGenres(run, names, picked);
    var genres := r.0.store.genres;
    var added := r.1[|picked|..];
    forall i | 0 <= i < |r.1|
      ensures r.1[i] in genres
    {
      if i < |picked| {
        assert r.1[i] == r.1[..|picked|][i] == picked[i];
      } else {
        assert r.1[i] == added[i - |picked|];
      }
    }
    forall name | name in names
      ensures exists g :: g in genres && genres[g].name == name
    {
      var i :| 0 <= i < |names| && names[i] == name;
      assert added[i] in genres && genres[added[i]].name == name;
    }
  }

  /** Resolution on a sound run never fails and keeps the run sound. */
  lemma {:induction false} ResolveGenresValid(run: Run, names: seq<string>, picked: seq<GenreId>)
    requires run.failure.None? && Valid(run.store) && CacheSound(run)
    ensures var r := ResolveGenres(run, names, picked);
      r.0.failure.None? && Valid(r.0.store) && CacheSound(r.0)
    decreases |names|
  {
    if |names| > 0 {
      var run', g := ResolveGenresStep(run, names, picked);
      ResolveGenresValid(run', names[1..], picked + [g]);
    }
  }

  /** One step of resolution on a stable table: the first name resolves,
      through the cache or a fetch-or-create, to a genre of that name, and
      the rest is resolved from the resulting run. */
  lemma ResolveGenresStep(run: Run, names: seq<string>, picked: seq<GenreId>) returns (run': Run, g: GenreId)
    requires run.failure.None? && GenresStable(run.store) && CacheSound(run) && |names| > 0
    ensures run'.failure.None? && GenresStable(run'.store) && CacheSound(run')
    ensures Valid(run.store) ==> Valid(run'.store)
    ensures g in run'.store.genres && run'.store.genres[g].name == names[0]
    ensures forall id :: id in run.store.genres ==> id in run'.store.genres && run'.store.genres[id] == run.store.genres[id]
    ensures ResolveGenres(run, names, picked) == ResolveGenres(run', names[1..], picked + [g])
  {
    var name := names[0];
    if name in run.cache {
      run', g := run, run.cache[name];
    } else {
      GetOrCreateGenreStable(run.store, name);
      if Valid(run.store) {
        GetOrCreateGenreValid(run.store, name);
      }
      var sg := GetOrCreateGenre(run.store, name).value;
      run', g := run.(store := sg.0, cache := run.cache[name := sg.1]), sg.1;
    }
  }

  /** The part of the store invariant the genre lookups rely on: unique
      names, and genre keys drawn below their counter. */
  predicate GenresStable(s: Store)
  {
    GenreNamesUnique(s.genres) && forall id :: id in s.genres ==> id < s.nextGenreId
  }

  /** Fetching or creating a genre never fails on a stable table, keeps it
      stable, and never alters an existing genre. */
  lemma GetOrCreateGenreStable(s: Store, name: string)
    requires GenresStable(s)
    ensures GetOrCreateGenre(s, name).Ok?
    ensures var s' := GetOrCreateGenre(s, name).value.0;
      && GenresStable(s')
      && (forall id :: id in s.genres ==> id in s'.genres && s'.genres[id] == s.genres[id])
  {
    if |GenresNamed(s, name)| == 0 {
      assert forall g :: g in s.genres ==> s.genres[g].name != name;
    }
  }

  /** `ids` lists, position by position, a stored genre of each of `names`. */
  predicate PicksNames(genres: map<GenreId, Genre>, ids: seq<GenreId>, names: seq<string>)
  {
    |ids| == |names| && forall i :: 0 <= i < |names| ==> ids[i] in genres && genres[ids[i]].name == names[i]
  }

  lemma PicksNamesCons(genres: map<GenreId, Genre>, g: GenreId, ids: seq<GenreId>, names: seq<string>)
    requires |names| > 0 && g in genres && genres[g].name == names[0]
    requires PicksNames(genres, ids, names[1..])
    ensures PicksNames(genres, [g] + ids, names)
  {
    forall i | 0 <= i < |names|
      ensures ([g] + ids)[i] in genres && genres[([g] + ids)[i]].name == names[i]
    {
      if i > 0 {
        assert ([g] + ids)[i] == ids[i - 1];
        assert names[i] == names[1..][i - 1];
      }
    }
  }

  /** A list that extends `picked + [g]` with the genres of the remaining
      names extends `picked` with the genres of all the names. */
  lemma PicksNamesAfter(genres: map<GenreId, Genre>, ids: seq<GenreId>, picked: seq<GenreId>, g: GenreId, names: seq<string>)
    requires |names| > 0 && g in genres && genres[g].name == names[0]
    requires |ids| >= |picked| + 1 && ids[..|picked| + 1] == picked + [g]
    requires PicksNames(genres, ids[|picked| + 1..], names[1..])
    ensures ids[..|picked|] == picked
    ensures PicksNames(genres, ids[|picked|..], names)
  {
    assert ids[..|picked|] == (ids[..|picked| + 1])[..|picked|];
    assert ids[|picked|] == (ids[..|picked| + 1])[|picked|] == g;
    assert ids[|picked|..] == [g] + ids[|picked| + 1..];
    PicksNamesCons(genres, g, ids[|picked| + 1..], names);
  }

  /** Resolution on a stable table appends exactly one genre per name, in
      order after the ones already picked, and each is the genre of its name. */
  lemma {:induction false} ResolveGenresInOrder(run: Run, names: seq<string>, picked: seq<GenreId>)
    requires run.failure.None? && GenresStable(run.store) && CacheSound(run)
    ensures var r := ResolveGenres(run, names, picked);
      && (forall id :: id in run.store.genres ==> id in r.0.store.genres && r.0.store.genres[id] == run.store.genres[id])
      && |r.1| >= |picked|
      && r.1[..|picked|] == picked
      && PicksNames(r.0.store.genres, r.1[|picked|..], names)
    decreases |names|
  {
    var r := ResolveGenres(run, names, picked);
    if |names| == 0 {
      assert r.1 == picked;
    } else {
      var run', g := ResolveGenresStep(run, names, picked);
      ResolveGenresInOrder(run', names[1..], picked + [g]);
      PicksNamesAfter(r.0.store.genres, r.1, picked, g, names);
    }
  }

  /** Processes one catalogue entry. */
  function SeedEntry(run: Run, e: Entry): (r: Run)
    // a stopped run stays stopped
    ensures run.failure.Some? ==> r == run
    // each processed entry is counted once, as created or as skipped
    ensures run.failure.None? && r.failure.None? ==> r.created + r.skipped == run.created + run.skipped + 1
    ensures r.failure.Some? ==> r.created + r.skipped == run.created + run.skipped
    // a created book is added under the next key, takes its fields from the
    // entry with all its copies available, and every other book stays as it was
    ensures run.failure.None? && r.created == run.created + 1 ==>
      var id := run.store.nextBookId;
      && id in r.store.books
      && r.store.books == run.store.books[id := r.store.books[id]]
      && (KeysConsistent(run.store) ==> id !in run.store.books)
      && r.store.books[id].title == e.title && r.store.books[id].author == e.author
      && r.store.books[id].isbn == Some(e.isbn)
      && r.store.books[id].totalCopies == r.store.books[id].availableCopies == e.totalCopies
    // a skipped entry leaves every book as it was
    ensures run.failure.None? && r.skipped == run.skipped + 1 ==> r.store.books == run.store.books
    // a failing book lookup or insert writes no book
    ensures run.failure.None? && r.failure.Some? ==> r.store.books == run.store.books
    ensures r.store.loans == run.store.loans && r.store.users == run.store.users
  {
    if run.failure.Some? then run
    else
      var resolved := ResolveGenres(run, e.genres, []);
      var run1 := resolved.0;
      if run1.failure.Some? then run1
      else
        var s := run1.store;
        var matches := BooksTitled(s.books, e.title, e.author);
        if |matches| == 1 then run1.(skipped := run1.skipped + 1)
        else if |matches| > 1 then run1.(failure := Some(MultipleBooksReturned))
        else if IsbnInUse(s.books, e.isbn) then run1.(failure := Some(IsbnTaken))
        else
          var id := s.nextBookId;
          var genres := set i | 0 <= i < |resolved.1| :: resolved.1[i];
          var book := Book(e.title, e.author, Some(e.isbn), genres, e.totalCopies, e.totalCopies);
          assert KeysConsistent(run.store) ==> id !in run.store.books;
          var books' := s.books[id := book];
          assert books'[id] == book;
          run1.(store := s.(books := books', nextBookId := id + 1), created := run1.created + 1)
  }

  /** On a sound run, a created book carries exactly the genres the entry names. */
  lemma SeedEntryCreates(run: Run, e: Entry)
    requires Sound(run) && run.failure.None?
    ensures var r := SeedEntry(run, e);
      r.created == run.created + 1 ==>
        var id := run.store.nextBookId;
        id in r.store.books &&
        forall g :: g in r.store.books[id].genres <==> g in r.store.genres && r.store.genres[g].name in e.genres
  {
    var r := SeedEntry(run, e);
    ResolveGenresValid(run, e.genres, []);
    ResolveGenresInOrder(run, e.genres, []);
    var resolved := ResolveGenres(run, e.genres, []);
    var ids := resolved.1;
    var genres := resolved.0.store.genres;
    assert ids[0..] == ids;
    assert PicksNames(genres, ids, e.genres);
    if r.created == run.created + 1 {
      var id := run.store.nextBookId;
      assert r.store.books[id].genres == set i | 0 <= i < |ids| :: ids[i];
      assert r.store.genres == genres;
      PickedAreNamed(genres, ids, e.genres);
    }
  }

  /** Under unique names, the genres picked for a list of names are exactly
      the genres whose name is on the list. */
  lemma PickedAreNamed(genres: map<GenreId, Genre>, ids: seq<GenreId>, names: seq<string>)
    requires PicksNames(genres, ids, names) && GenreNamesUnique(genres)
    ensures forall g :: g in (set i | 0 <= i < |ids| :: ids[i]) <==> g in genres && genres[g].name in names
  {
    var picked := set i | 0 <= i < |ids| :: ids[i];
    forall g
      ensures g in picked <==> g in genres && genres[g].name in names
    {
      if g in genres && genres[g].name in names {
        var i :| 0 <= i < |names| && names[i] == genres[g].name;
        assert genres[ids[i]].name == genres[g].name;
        assert ids[i] == g;
      }
    }
  }

  /** An entry whose (title, author) already has a book is counted as
      skipped and leaves every book as it was, whatever genres it names. */
  lemma SeedEntrySkipsExisting(run: Run, e: Entry)
    requires Sound(run) && run.failure.None?
    requires |BooksTitled(run.store.books, e.title, e.author)| == 1
    ensures var r := SeedEntry(run, e);
      && r.failure.None?
      && r.skipped == run.skipped + 1 && r.created == run.created
      && r.store.books == run.store.books
  {
    ResolveGenresSound(run, e.genres, []);
  }

  /** When the book's insert clashes on its ISBN, the genres resolved before
      it stay: each genre name of the entry names a stored genre. */
  lemma SeedEntryFailureKeepsGenres(run: Run, e: Entry)
    requires Sound(run) && run.failure.None?
    ensures var r := SeedEntry(run, e);
      r.failure == Some(IsbnTaken) ==>
        forall name :: name in e.genres ==> exists g :: g in r.store.genres && r.store.genres[g].name == name
  {
    ResolveGenresSound(run, e.genres, []);
  }

  /** The remaining entries processed in order from `run`. */
  function SeedFrom(run: Run, entries: seq<Entry>): Run
    decreases |entries|
  {
    if |entries| == 0 then run else SeedFrom(SeedEntry(run, entries[0]), entries[1..])
  }

  /** The command's `handle`: the catalogue processed from a fresh run, one
      entry per loop iteration. */
  method PopulateBooks(s: Store, entries: seq<Entry>) returns (r: Run)
    ensures r == SeedFrom(Start(s), entries)
    ensures r.failure.None? ==> r.created + r.skipped == |entries|
    ensures r.created + r.skipped <= |entries|
  {
    r := Start(s);
    var i := 0;
    while i < |entries|
      invariant 0 <= i <= |entries|
      invariant SeedFrom(r, entries[i..]) == SeedFrom(Start(s), entries)
      invariant r.failure.None? ==> r.created + r.skipped == i
      invariant r.created + r.skipped <= i
    {
      assert entries[i..][1..] == entries[i + 1..];
      r := SeedEntry(r, entries[i]);
      i := i + 1;
    }
    assert entries[i..] == [];
  }

  /** A run whose store meets the schema and whose cache agrees with it. */
  predicate Sound(run: Run)
  {
    Valid(run.store) && CacheSound(run)
  }

  /** A stopped run is not resumed by further entries. */
  lemma {:induction false} StoppedRunStays(run: Run, entries: seq<Entry>)
    requires run.failure.Some?
    ensures SeedFrom(run, entries) == run
    decreases |entries|
  {
    if |entries| > 0 {
      StoppedRunStays(SeedEntry(run, entries[0]), entries[1..]);
    }
  }

  /** Processing an entry keeps the run sound, whether it creates, skips
      or stops, and never removes or alters a genre. */
  lemma SeedEntrySound(run: Run, e: Entry)
    requires Sound(run) && run.failure.None?
    ensures Sound(SeedEntry(run, e))
    ensures var r := SeedEntry(run, e);
      forall id :: id in run.store.genres ==> id in r.store.genres && r.store.genres[id] == run.store.genres[id]
  {
    ResolveGenresValid(run, e.genres, []);
    ResolveGenresInOrder(run, e.genres, []);
    var resolved := ResolveGenres(run, e.genres, []);
    var s := resolved.0.store;
    var ids := resolved.1;
    assert ids[0..] == ids;
    var r := SeedEntry(run, e);
    assert r.store.genres == s.genres && r.cache == resolved.0.cache;
    if r.created == run.created + 1 {
      var genres := set i | 0 <= i < |ids| :: ids[i];
      assert PicksNames(s.genres, ids, e.genres);
      assert genres <= s.genres.Keys;
      var book := Book(e.title, e.author, Some(e.isbn), genres, e.totalCopies, e.totalCopies);
      InsertBookValid(s, book);
      assert r.store == s.(books := s.books[s.nextBookId := book], nextBookId := s.nextBookId + 1);
    }
  }

  /** Inserting a book under the next key, with a fresh ISBN, non-negative
      copies and stored genres, keeps every schema constraint. */
  lemma InsertBookValid(s: Store, book: Book)
    requires Valid(s)
    requires book.isbn.Some? && !IsbnInUse(s.books, book.isbn.value)
    requires book.genres <= s.genres.Keys
    requires book.totalCopies >= 0 && book.availableCopies >= 0
    ensures Valid(s.(books := s.books[s.nextBookId := book], nextBookId := s.nextBookId + 1))
  {
  }

  /** A run from a sound state stays sound. */
  lemma {:induction false} SeedFromSound(run: Run, entries: seq<Entry>)
    requires Sound(run)
    ensures Sound(SeedFrom(run, entries))
    decreases |entries|
  {
    if |entries| > 0 {
      if run.failure.None? {
        SeedEntrySound(run, entries[0]);
      }
      SeedFromSound(SeedEntry(run, entries[0]), entries[1..]);
    }
  }

  /** The store holds the entry: exactly one book with its title and
      author, and a genre for each of its genre names. */
  predicate Seeded(s: Store, e: Entry)
  {
    && |BooksTitled(s.books, e.title, e.author)| == 1
    && forall name :: name in e.genres ==> exists g :: g in s.genres && s.genres[g].name == name
  }

  /** Processing an entry without failure leaves it seeded, and keeps
      seeded every entry that already was. */
  lemma SeedEntryEstablishes(run: Run, e: Entry, others: seq<Entry>)
    requires Sound(run) && run.failure.None?
    requires forall o :: o in others ==> Seeded(run.store, o)
    ensures SeedEntry(run, e).failure.None? ==>
      Seeded(SeedEntry(run, e).store, e) && forall o :: o in others ==> Seeded(SeedEntry(run, e).store, o)
  {
    ResolveGenresSound(run, e.genres, []);
    var resolved := ResolveGenres(run, e.genres, []);
    var s := resolved.0.store;
    var r := SeedEntry(run, e);
    if r.failure.None? {
      assert r.store.genres == s.genres;
      forall o | o in others
        ensures Seeded(r.store, o)
      {
        assert Seeded(run.store, o);
        if r.created == run.created + 1 {
          assert BooksTitled(s.books, e.title, e.author) == {};
          assert |BooksTitled(s.books, o.title, o.author)| == 1;
          assert o.title != e.title || o.author != e.author;
          assert BooksTitled(r.store.books, o.title, o.author) == BooksTitled(s.books, o.title, o.author);
        }
      }
      if r.created == run.created + 1 {
        var id := s.nextBookId;
        assert BooksTitled(r.store.books, e.title, e.author) == {id};
      }
    }
  }

  /** After a run that completes, every entry of the catalogue is seeded,
      together with every entry that was seeded before. */
  lemma {:induction false} SeedFromEstablishes(run: Run, entries: seq<Entry>, done: seq<Entry>)
    requires Sound(run) && run.failure.None?
    requires forall o :: o in done ==> Seeded(run.store, o)
    ensures SeedFrom(run, entries).failure.None? ==>
      forall o :: o in done + entries ==> Seeded(SeedFrom(run, entries).store, o)
    decreases |entries|
  {
    if |entries| > 0 {
      var next := SeedEntry(run, entries[0]);
      assert SeedFrom(run, entries) == SeedFrom(next, entries[1..]);
      if next.failure.None? {
        SeedEntryEstablishes(run, entries[0], done);
        SeedEntrySound(run, entries[0]);
        SeedFromEstablishes(next, entries[1..], done + [entries[0]]);
        assert forall o :: o in done + entries ==> o in (done + [entries[0]]) + entries[1..];
      } else {
        StoppedRunStays(next, entries[1..]);
      }
    } else {
      assert done + entries == done;
    }
  }

  /** Resolving names that all have a genre writes nothing. */
  lemma {:induction false} ResolveGenresNoop(run: Run, names: seq<string>, picked: seq<GenreId>)
    requires Sound(run) && run.failure.None?
    requires forall name :: name in names ==> exists g :: g in run.store.genres && run.store.genres[g].name == name
    ensures ResolveGenres(run, names, picked).0.store == run.store
    ensures ResolveGenres(run, names, picked).0.failure.None?
    ensures CacheSound(ResolveGenres(run, names, picked).0)
    decreases |names|
  {
    if |names| > 0 {
      var name := names[0];
      assert name in names;
      assert forall n :: n in names[1..] ==> n in names;
      if name in run.cache {
        ResolveGenresNoop(run, names[1..], picked + [run.cache[name]]);
      } else {
        GetOrCreateGenreValid(run.store, name);
        var sg := GetOrCreateGenre(run.store, name).value;
        ResolveGenresNoop(run.(store := sg.0, cache := run.cache[name := sg.1]), names[1..], picked + [sg.1]);
      }
    }
  }

  /** Processing an entry that is already seeded only counts it as skipped. */
  lemma SeedEntryNoop(run: Run, e: Entry)
    requires Sound(run) && run.failure.None?
    requires Seeded(run.store, e)
    ensures var r := SeedEntry(run, e);
      && r.store == run.store && r.failure.None? && CacheSound(r)
      && r.created == run.created && r.skipped == run.skipped + 1
  {
    ResolveGenresNoop(run, e.genres, []);
  }

  /** Processing seeded entries only counts them as skipped. */
  lemma {:induction false} SeedFromNoop(run: Run, entries: seq<Entry>)
    requires Sound(run) && run.failure.None?
    requires forall o :: o in entries ==> Seeded(run.store, o)
    ensures var r := SeedFrom(run, entries);
      && r.store == run.store && r.failure.None?
      && r.created == run.created && r.skipped == run.skipped + |entries|
    decreases |entries|
  {
    if |entries| > 0 {
      assert entries[0] in entries;
      SeedEntryNoop(run, entries[0]);
      assert forall o :: o in entries[1..] ==> o in entries;
      SeedFromNoop(SeedEntry(run, entries[0]), entries[1..]);
    }
  }

  /** Seeding is idempotent: after a run that completes on a valid store,
      a second run creates nothing, skips every entry and writes nothing,
      and each genre name of the catalogue names exactly one genre. */
  lemma SeedingIsIdempotent(s: Store, entries: seq<Entry>)
    requires Valid(s)
    requires SeedFrom(Start(s), entries).failure.None?
    ensures var first := SeedFrom(Start(s), entries);
      var second := SeedFrom(Start(first.store), entries);
      && second.failure.None?
      && second.created == 0
      && second.skipped == |entries|
      && second.store == first.store
    ensures var first := SeedFrom(Start(s), entries);
      forall e, name :: e in entries && name in e.genres ==> |GenresNamed(first.store, name)| == 1
  {
    var first := SeedFrom(Start(s), entries);
    SeedFromSound(Start(s), entries);
    SeedFromEstablishes(Start(s), entries, []);
    assert [] + entries == entries;
    SeedFromNoop(Start(first.store), entries);
    forall e, name | e in entries && name in e.genres
      ensures |GenresNamed(first.store, name)| == 1
    {
      assert Seeded(first.store, e);
      var g :| g in first.store.genres && first.store.genres[g].name == name;
      assert g in GenresNamed(first.store, name);
    }
  }
}

=== FILE: transactions.dfy ===
/**
  The two bookkeeping transactions of the library: checking a copy out
  (`_execute_checkout`) and returning it (`_execute_return`). Each is one
  atomic step from a store to a new store or to the exception it raises.
 */
module Transactions {
  import opened Wrappers
  import opened Models

  /** The exceptions the two transactions raise. */
  datatype Failure =
    | BookNotFound       // Book.DoesNotExist
    | NoCopiesAvailable  // ValueError: no copies currently available
    | AlreadyOnLoan      // ValueError: the member already has an active loan for this book
    | LoanNotFound       // Loan.DoesNotExist

  /** A successful checkout: the new store and the key of the created loan. */
  datatype CheckedOut = CheckedOut(store: Store, loan: LoanId)

  /** Checks `book` out to `member` at time `now`. */
  function Checkout(s: Store, member: UserId, book: BookId, now: Time): (r: Result<CheckedOut, Failure>)
    // the two guards, in the order `_execute_checkout` tests them
    ensures book !in s.books ==> r == Err(BookNotFound)
    ensures book in s.books && s.books[book].availableCopies <= 0 ==> r == Err(NoCopiesAvailable)
    ensures book in s.books && s.books[book].availableCopies > 0 && HasActiveLoan(s.loans, member, book) ==>
      r == Err(AlreadyOnLoan)
    ensures r.Ok? <==> book in s.books && s.books[book].availableCopies > 0 && !HasActiveLoan(s.loans, member, book)
    // one new loan, active and not returned, for exactly this member and book
    ensures r.Ok? ==>
      var s' := r.value.store;
      && r.value.loan in s'.loans
      && s'.loans[r.value.loan] == Loan(member, book, now, None, true)
      && s'.loans.Keys == s.loans.Keys + {r.value.loan}
      && (forall id :: id in s.loans && id != r.value.loan ==> s'.loans[id] == s.loans[id])
      && (KeysConsistent(s) ==> r.value.loan !in s.loans)
    // one copy fewer on the shelf; nothing else changes
    ensures r.Ok? ==>
      var s' := r.value.store;
      && s'.books.Keys == s.books.Keys
      && s'.books[book].availableCopies == s.books[book].availableCopies - 1
      && s'.books[book] == s.books[book].(availableCopies := s'.books[book].availableCopies)
      && (forall id :: id in s.books && id != book ==> s'.books[id] == s.books[id])
      && s'.users == s.users && s'.genres == s.genres
  {
    if book !in s.books then Err(BookNotFound)
    else
      var b := s.books[book];
      if b.availableCopies <= 0 then Err(NoCopiesAvailable)
      else if HasActiveLoan(s.loans, member, book) then Err(AlreadyOnLoan)
      else
        var id := s.nextLoanId;
        var s' := s.(
          loans := s.loans[id := NewLoan(member, book, now)],
          books := s.books[book := b.(availableCopies := b.availableCopies - 1)],
          nextLoanId := id + 1);
        Ok(CheckedOut(s', id))
  }

  /** The row filter of the return lookup: the loan exists, is active and,
      when the caller is scoped to a member, belongs to that member. */
  predicate Matches(s: Store, loan: LoanId, scope: Option<UserId>)
  {
    && loan in s.loans
    && s.loans[loan].isActive
    && (scope.Some? ==> s.loans[loan].member == scope.value)
  }

  /** Returns loan `loan` at time `now`; `scope` is the member the caller is
      restricted to, or None for an unrestricted (staff) return. */
  function Return(s: Store, loan: LoanId, scope: Option<UserId>, now: Time): (r: Result<Store, Failure>)
    ensures !Matches(s, loan, scope) ==> r == Err(LoanNotFound)
    ensures r.Ok? <==> Matches(s, loan, scope) && s.loans[loan].book in s.books
    ensures KeysConsistent(s) ==> (r.Ok? <==> Matches(s, loan, scope))
    // the loan is closed and stamped; no other loan changes
    ensures r.Ok? ==>
      && r.value.loans.Keys == s.loans.Keys
      && !r.value.loans[loan].isActive
      && r.value.loans[loan].returnedAt == Some(now)
      && r.value.loans[loan] == s.loans[loan].(isActive := r.value.loans[loan].isActive,
                                               returnedAt := r.value.loans[loan].returnedAt)
      && (forall id :: id in s.loans && id != loan ==> r.value.loans[id] == s.loans[id])
    // one copy more on the shelf of the loan's book; nothing else changes
    ensures r.Ok? ==>
      var book := s.loans[loan].book;
      && r.value.books.Keys == s.books.Keys
      && r.value.books[book].availableCopies == s.books[book].availableCopies + 1
      && r.value.books[book] == s.books[book].(availableCopies := r.value.books[book].availableCopies)
      && (forall id :: id in s.books && id != book ==> r.value.books[id] == s.books[id])
      && r.value.users == s.users && r.value.genres == s.genres && r.value.nextLoanId == s.nextLoanId
      && r.value.nextBookId == s.nextBookId && r.value.nextGenreId == s.nextGenreId
    // only the loans and books tables are written
    ensures r.Ok? ==> r.value == s.(loans := r.value.loans, books := r.value.books)
  {
    if !Matches(s, loan, scope) then Err(LoanNotFound)
    else
      var l := s.loans[loan];
      if l.book !in s.books then Err(BookNotFound)
      else
        var b := s.books[l.book];
        Ok(s.(
          loans := s.loans[loan := l.(isActive := false, returnedAt := Some(now))],
          books := s.books[l.book := b.(availableCopies := b.availableCopies + 1)]))
  }

  /** Checkout keeps every schema constraint: the guard keeps availability
      non-negative and the duplicate check keeps active loans unique. */
  lemma CheckoutPreservesValid(s: Store, member: UserId, book: BookId, now: Time)
    requires Valid(s)
    requires member in s.users
    ensures Checkout(s, member, book, now).Ok? ==> Valid(Checkout(s, member, book, now).value.store)
  {
    if Checkout(s, member, book, now).Ok? {
      OpenLoanValid(s, member, book, now);
    }
  }

  /** The store a successful checkout writes is valid. */
  lemma OpenLoanValid(s: Store, member: UserId, book: BookId, now: Time)
    requires Valid(s) && member in s.users && book in s.books
    requires s.books[book].availableCopies > 0 && !HasActiveLoan(s.loans, member, book)
    ensures var b := s.books[book];
      Valid(s.(loans := s.loans[s.nextLoanId := NewLoan(member, book, now)],
               books := s.books[book := b.(availableCopies := b.availableCopies - 1)],
               nextLoanId := s.nextLoanId + 1))
  {
    var b := s.books[book];
    var s' := s.(loans := s.loans[s.nextLoanId := NewLoan(member, book, now)],
                 books := s.books[book := b.(availableCopies := b.availableCopies - 1)],
                 nextLoanId := s.nextLoanId + 1);
    assert CopiesNonNegative(s'.books);
    // no earlier loan of the pair is active, so the new loan clashes with none
    assert forall x :: x in s.loans && s.loans[x].member == member && s.loans[x].book == book ==>
      !s.loans[x].isActive;
    assert UniqueActiveLoans(s'.loans);
    assert IsbnUnique(s'.books);
    assert LoanShapes(s'.loans);
    assert KeysConsistent(s');
  }

  /** Return keeps every schema constraint. */
  lemma ReturnPreservesValid(s: Store, loan: LoanId, scope: Option<UserId>, now: Time)
    requires Valid(s)
    ensures Return(s, loan, scope, now).Ok? ==> Valid(Return(s, loan, scope, now).value)
  {
    if Return(s, loan, scope, now).Ok? {
      CloseLoanValid(s, loan, now);
    }
  }

  /** The store a successful return writes is valid. */
  lemma CloseLoanValid(s: Store, loan: LoanId, now: Time)
    requires Valid(s) && loan in s.loans && s.loans[loan].isActive && s.loans[loan].book in s.books
    ensures var l := s.loans[loan];
      var b := s.books[l.book];
      Valid(s.(loans := s.loans[loan := l.(isActive := false, returnedAt := Some(now))],
               books := s.books[l.book := b.(availableCopies := b.availableCopies + 1)]))
  {
    var l := s.loans[loan];
    var b := s.books[l.book];
    var s' := s.(loans := s.loans[loan := l.(isActive := false, returnedAt := Some(now))],
                 books := s.books[l.book := b.(availableCopies := b.availableCopies + 1)]);
    assert CopiesNonNegative(s'.books);
    assert UniqueActiveLoans(s'.loans);
    assert IsbnUnique(s'.books);
    assert LoanShapes(s'.loans);
    assert KeysConsistent(s');
  }

  /** Checkout moves one copy of `book` from the shelf to a new active loan:
      the active loans of `book` gain exactly the created loan, and every
      book's balance of shelf copies plus active loans is unchanged. */
  lemma CheckoutKeepsBalance(s: Store, member: UserId, book: BookId, now: Time)
    requires KeysConsistent(s)
    requires Checkout(s, member, book, now).Ok?
    ensures var c := Checkout(s, member, book, now).value;
      && ActiveLoansOf(c.store.loans, book) == ActiveLoansOf(s.loans, book) + {c.loan}
      && forall b :: b in s.books ==> b in c.store.books && Balance(c.store, b) == Balance(s, b)
  {
    var c := Checkout(s, member, book, now).value;
    var l := NewLoan(member, book, now);
    var b0 := s.books[book];
    assert c.loan == s.nextLoanId && c.loan !in s.loans;
    assert c.store.loans == s.loans[c.loan := l];
    assert c.store.books == s.books[book := b0.(availableCopies := b0.availableCopies - 1)];
    forall b | b in s.books
      ensures b in c.store.books && Balance(c.store, b) == Balance(s, b)
    {
      ActiveLoansAfterInsert(s.loans, c.loan, l, b);
    }
    ActiveLoansAfterInsert(s.loans, c.loan, l, book);
  }

  /** Adding a loan under an unused key adds it to its book's active loans
      when it is active, and changes no other book's active loans. */
  lemma ActiveLoansAfterInsert(loans: map<LoanId, Loan>, id: LoanId, l: Loan, b: BookId)
    requires id !in loans
    ensures ActiveLoansOf(loans[id := l], b) ==
      ActiveLoansOf(loans, b) + (if l.book == b && l.isActive then {id} else {})
  {
  }

  /** Return moves one copy back from the returned loan to the shelf: the
      active loans of its book lose exactly that loan, and every book's
      balance is unchanged. */
  lemma ReturnKeepsBalance(s: Store, loan: LoanId, scope: Option<UserId>, now: Time)
    requires Return(s, loan, scope, now).Ok?
    ensures var s' := Return(s, loan, scope, now).value;
      && ActiveLoansOf(s'.loans, s.loans[loan].book) == ActiveLoansOf(s.loans, s.loans[loan].book) - {loan}
      && forall b :: b in s.books ==> b in s'.books && Balance(s', b) == Balance(s, b)
  {
    var s' := Return(s, loan, scope, now).value;
    var book := s.loans[loan].book;
    forall b | b in s.books
      ensures Balance(s', b) == Balance(s, b)
    {
      if b == book {
        assert loan in ActiveLoansOf(s.loans, b);
        assert ActiveLoansOf(s'.loans, b) == ActiveLoansOf(s.loans, b) - {loan};
      } else {
        assert ActiveLoansOf(s'.loans, b) == ActiveLoansOf(s.loans, b);
      }
    }
  }

  /** Returning the loan a checkout just created, by its member or by
      staff, succeeds and restores every book exactly as it was. */
  lemma CheckoutThenReturnRestoresBooks(s: Store, member: UserId, book: BookId, scope: Option<UserId>, t1: Time, t2: Time)
    requires Valid(s)
    requires Checkout(s, member, book, t1).Ok?
    requires scope == None || scope == Some(member)
    ensures var c := Checkout(s, member, book, t1).value;
      && Return(c.store, c.loan, scope, t2).Ok?
      && Return(c.store, c.loan, scope, t2).value.books == s.books
  {
    var c := Checkout(s, member, book, t1).value;
    assert Matches(c.store, c.loan, scope);
    var s2 := Return(c.store, c.loan, scope, t2).value;
    assert s2.books[book] == s.books[book];
  }

  /** A loan cannot be returned twice: once returned, every further
      return of it, scoped or not, reports that no such loan exists. */
  lemma ReturnIsNotRepeatable(s: Store, loan: LoanId, scope: Option<UserId>, scope': Option<UserId>, t1: Time, t2: Time)
    requires Return(s, loan, scope, t1).Ok?
    ensures Return(Return(s, loan, scope, t1).value, loan, scope', t2) == Err(LoanNotFound)
  {
  }
}

=== FILE: views.dfy ===
/**
  The decisions the request handlers make around the two transactions:
  which transaction runs with which arguments, what a failure turns into,
  and the read-only views that filter and order rows. Each handler that
  writes runs its transaction atomically: on failure the store is left
  exactly as it was.
 */
module Views {
  import opened Wrappers
  import opened Queries
  import opened Models
  import opened Transactions
  import opened Forms

  /** What a handler reports instead of success. */
  datatype ViewError =
    | NotFound                                     // HTTP 404
    | Rejected(reason: Failure)                    // a transaction's business-rule refusal
    | InvalidAssignment(errors: set<AssignFormError>)
    | BookHasActiveLoans                           // delete refused

  /** A handler's result together with the store it leaves behind. */
  datatype Reply<T> = Reply(store: Store, result: Result<T, ViewError>)

  /** The HTTP-level meaning of a transaction failure: a missing row is a 404,
      a business-rule refusal is reported back to the user. */
  function Report(f: Failure): ViewError
  {
    if f == BookNotFound || f == LoanNotFound then NotFound else Rejected(f)
  }

  /** What the book detail page tells a member. */
  datatype Detail = Detail(hasActiveLoan: bool, canCheckout: bool)

  /** The book detail page of `book` as seen by `user`. */
  function BookDetail(s: Store, user: UserId, book: BookId): (r: Result<Detail, ViewError>)
    ensures book !in s.books <==> r == Err(NotFound)
    ensures r.Ok? ==> (r.value.hasActiveLoan <==> HasActiveLoan(s.loans, user, book))
  {
    if book !in s.books then Err(NotFound)
    else
      var has := HasActiveLoan(s.loans, user, book);
      Ok(Detail(has, s.books[book].availableCopies > 0 && !has))
  }

  /** A member checks a book out for themself. */
  function BookCheckout(s: Store, user: UserId, book: BookId, now: Time): (r: Reply<LoanId>)
    ensures r.result.Err? ==> r.store == s
    ensures r.result == Err(NotFound) <==> book !in s.books
    // the refusals are reported with their reason
    ensures r.result == Err(Rejected(NoCopiesAvailable)) <==> book in s.books && s.books[book].availableCopies <= 0
    ensures r.result == Err(Rejected(AlreadyOnLoan)) <==>
      book in s.books && s.books[book].availableCopies > 0 && HasActiveLoan(s.loans, user, book)
    // success commits the transaction: the member now holds the book, which has one copy fewer on the shelf
    ensures r.result.Ok? ==> Checkout(s, user, book, now) == Ok(CheckedOut(r.store, r.result.value))
    ensures r.result.Ok? ==> HasActiveLoan(r.store.loans, user, book) && !HasActiveLoan(s.loans, user, book)
    ensures r.result.Ok? ==>
      book in r.store.books && r.store.books[book].availableCopies == s.books[book].availableCopies - 1
  {
    match Checkout(s, user, book, now)
    case Ok(c) => Reply(c.store, Ok(c.loan))
    case Err(f) => Reply(s, Err(Report(f)))
  }

  /** The detail page offers checkout exactly when the member's own
      checkout of that book would succeed. */
  lemma CanCheckoutIffCheckoutSucceeds(s: Store, user: UserId, book: BookId, now: Time)
    requires book in s.books
    ensures BookDetail(s, user, book).Ok?
    ensures BookDetail(s, user, book).value.canCheckout <==> BookCheckout(s, user, book, now).result.Ok?
    ensures BookDetail(s, user, book).value.canCheckout <==>
      s.books[book].availableCopies > 0 && !HasActiveLoan(s.loans, user, book)
  {
  }

  /** What a committed return does to the loan and to its book: the loan is
      closed and stamped, and the book has one more copy on the shelf. */
  predicate ReturnEffect(s: Store, s': Store, loan: LoanId, now: Time)
  {
    && loan in s.loans && loan in s'.loans
    && s.loans[loan].isActive && !s'.loans[loan].isActive
    && s'.loans[loan].returnedAt == Some(now)
    && s.loans[loan].book in s.books && s.loans[loan].book in s'.books
    && s'.books[s.loans[loan].book].availableCopies == s.books[s.loans[loan].book].availableCopies + 1
  }

  /** A member returns one of their own loans. */
  function LoanReturn(s: Store, user: UserId, loan: LoanId, now: Time): (r: Reply<()>)
    ensures r.result.Err? ==> r.store == s && r.result == Err(NotFound)
    // only the member's own active loan can be returned this way
    ensures r.result.Ok? ==> loan in s.loans && s.loans[loan].member == user && s.loans[loan].isActive
    ensures loan in s.loans && s.loans[loan].member != user ==> r == Reply(s, Err(NotFound))
    ensures KeysConsistent(s) ==>
      (r.result.Ok? <==> loan in s.loans && s.loans[loan].member == user && s.loans[loan].isActive)
    // success commits the transaction: the loan is closed and its copy is back on the shelf
    ensures r.result.Ok? ==> Return(s, loan, Some(user), now) == Ok(r.store)
    ensures r.result.Ok? ==> ReturnEffect(s, r.store, loan, now)
  {
    match Return(s, loan, Some(user), now)
    case Ok(s') => Reply(s', Ok(()))
    case Err(f) => Reply(s, Err(Report(f)))
  }

  /** Staff return any active loan, whoever holds it. */
  function StaffForceReturn(s: Store, loan: LoanId, now: Time): (r: Reply<()>)
    ensures r.result.Err? ==> r.store == s && r.result == Err(NotFound)
    ensures KeysConsistent(s) ==> (r.result.Ok? <==> loan in s.loans && s.loans[loan].isActive)
    // success commits the transaction: the loan is closed and its copy is back on the shelf
    ensures r.result.Ok? ==> Return(s, loan, None, now) == Ok(r.store)
    ensures r.result.Ok? ==> ReturnEffect(s, r.store, loan, now)
  {
    match Return(s, loan, None, now)
    case Ok(s') => Reply(s', Ok(()))
    case Err(f) => Reply(s, Err(Report(f)))
  }

  /** A member's return and a staff return of the same loan of that member
      have the same effect. */
  lemma MemberAndStaffReturnAgree(s: Store, loan: LoanId, now: Time)
    requires loan in s.loans
    ensures LoanReturn(s, s.loans[loan].member, loan, now) == StaffForceReturn(s, loan, now)
  {
  }

  /** Staff assign a loan through the assignment form; the form is
      validated first and the checkout runs only on a valid form. */
  function StaffAssignLoan(s: Store, member: Option<UserId>, book: Option<BookId>, now: Time): (r: Reply<LoanId>)
    ensures r.result.Err? ==> r.store == s
    ensures r.result.Ok? <==> ValidateAssignLoan(s, member, book) == {}
    // the transaction's own refusals are unreachable behind a valid form
    ensures !r.result.Err? || r.result.error.InvalidAssignment?
    ensures r.result.Ok? ==>
      && (KeysConsistent(s) ==> r.result.value !in s.loans)
      && r.result.value in r.store.loans
      && r.store.loans[r.result.value] == Loan(member.value, book.value, now, None, true)
    // success commits the transaction: the chosen book has one copy fewer on the shelf
    ensures r.result.Ok? ==>
      && Checkout(s, member.value, book.value, now) == Ok(CheckedOut(r.store, r.result.value))
      && book.value in s.books && book.value in r.store.books
      && r.store.books[book.value].availableCopies == s.books[book.value].availableCopies - 1
  {
    var errors := ValidateAssignLoan(s, member, book);
    if errors != {} then Reply(s, Err(InvalidAssignment(errors)))
    else
      // behind a valid form the transaction's refusals cannot happen
      AcceptedAssignmentChecksOut(s, member.value, book.value, now);
      var c := Checkout(s, member.value, book.value, now).value;
      Reply(c.store, Ok(c.loan))
  }

  /** Staff delete a book. A book with an active loan is kept; otherwise
      the book goes, and with it every loan that referred to it. */
  function StaffDeleteBook(s: Store, book: BookId): (r: Reply<()>)
    ensures book !in s.books ==> r == Reply(s, Err(NotFound))
    ensures book in s.books && ActiveLoansOf(s.loans, book) != {} ==> r == Reply(s, Err(BookHasActiveLoans))
    ensures r.result.Ok? <==> book in s.books && ActiveLoansOf(s.loans, book) == {}
    ensures r.result.Ok? ==>
      && r.store.books.Keys == s.books.Keys - {book}
      && (forall id :: id in r.store.books ==> r.store.books[id] == s.books[id])
      && (forall id :: id in s.loans ==> (id in r.store.loans <==> s.loans[id].book != book))
      && (forall id :: id in r.store.loans ==> id in s.loans && r.store.loans[id] == s.loans[id])
      && r.store.users == s.users && r.store.genres == s.genres
  {
    if book !in s.books then Reply(s, Err(NotFound))
    else if ActiveLoansOf(s.loans, book) != {} then Reply(s, Err(BookHasActiveLoans))
    else
      var loans := map id | id in s.loans && s.loans[id].book != book :: s.loans[id];
      Reply(s.(books := s.books - {book}, loans := loans), Ok(()))
  }

  /** Deleting a book keeps every schema constraint, foreign keys included. */
  lemma StaffDeleteBookPreservesValid(s: Store, book: BookId)
    requires Valid(s)
    ensures Valid(StaffDeleteBook(s, book).store)
  {
  }

  /** Whether a loan row is shown under the loan list's `status` filter. */
  predicate ShownUnder(status: Option<string>, l: Loan)
  {
    if status == Some("active") then l.isActive
    else if status == Some("returned") then !l.isActive
    else true
  }

  /** The staff loan list: the rows passing the status filter, newest first. */
  function StaffLoanList(s: Store, status: Option<string>): (r: seq<(LoanId, Loan)>)
    ensures forall i :: 0 <= i < |r| ==> r[i].0 in s.loans && r[i].1 == s.loans[r[i].0]
    ensures status == Some("active") ==> forall i :: 0 <= i < |r| ==> r[i].1.isActive
    ensures status == Some("returned") ==> forall i :: 0 <= i < |r| ==> !r[i].1.isActive
    // every shown row appears exactly once
    ensures KeysConsistent(s) ==>
      forall id :: id in s.loans && ShownUnder(status, s.loans[id]) ==> multiset(r)[(id, s.loans[id])] == 1
    ensures forall x :: multiset(r)[x] <= 1
    ensures SortedBy(r, NewestFirst)
  {
    var shown := map id | id in s.loans && ShownUnder(status, s.loans[id]) :: s.loans[id];
    NewestFirstIsTotalPreorder();
    var r := SortedRows(shown, s.nextLoanId, NewestFirst);
    assert KeysConsistent(s) ==> forall id :: id in s.loans && ShownUnder(status, s.loans[id]) ==>
      id in shown && id < s.nextLoanId && shown[id] == s.loans[id];
    r
  }

  /** The catalogue: every book, ordered by title. */
  function BookList(s: Store): (r: seq<(BookId, Book)>)
    ensures forall i :: 0 <= i < |r| ==> r[i].0 in s.books && r[i].1 == s.books[r[i].0]
    ensures KeysConsistent(s) ==> forall id :: id in s.books ==> multiset(r)[(id, s.books[id])] == 1
    ensures forall x :: multiset(r)[x] <= 1
    ensures SortedBy(r, TitleOrder)
  {
    TitleOrderIsTotalPreorder();
    SortedRows(s.books, s.nextBookId, TitleOrder)
  }

  /** A request that writes to the store. */
  datatype Action =
    | MemberCheckout(user: UserId, book: BookId)
    | MemberReturn(user: UserId, loan: LoanId)
    | StaffAssign(member: Option<UserId>, chosen: Option<BookId>)
    | StaffReturn(returned: LoanId)
    | StaffDelete(deleted: BookId)

  /** The store after handling one request at time `now`. */
  function Apply(s: Store, a: Action, now: Time): Store
  {
    match a
    case MemberCheckout(u, b) => BookCheckout(s, u, b, now).store
    case MemberReturn(u, l) => LoanReturn(s, u, l, now).store
    case StaffAssign(m, b) => StaffAssignLoan(s, m, b, now).store
    case StaffReturn(l) => StaffForceReturn(s, l, now).store
    case StaffDelete(b) => StaffDeleteBook(s, b).store
  }

  /** The store after handling a sequence of timed requests in order. */
  function Replay(s: Store, requests: seq<(Action, Time)>): Store
    decreases |requests|
  {
    if |requests| == 0 then s else Replay(Apply(s, requests[0].0, requests[0].1), requests[1..])
  }

  /** Members acting on their own behalf are accounts of the store. */
  predicate MembersKnown(users: map<UserId, User>, requests: seq<(Action, Time)>)
  {
    forall i :: 0 <= i < |requests| && requests[i].0.MemberCheckout? ==> requests[i].0.user in users
  }

  /** Every handled request keeps every schema constraint and the accounts. */
  lemma ApplyPreservesValid(s: Store, a: Action, now: Time)
    requires Valid(s)
    requires a.MemberCheckout? ==> a.user in s.users
    ensures Valid(Apply(s, a, now)) && Apply(s, a, now).users == s.users
  {
    match a
    case MemberCheckout(u, b) => CheckoutPreservesValid(s, u, b, now);
    case MemberReturn(u, l) => ReturnPreservesValid(s, l, Some(u), now);
    case StaffAssign(m, b) =>
      if ValidateAssignLoan(s, m, b) == {} {
        CheckoutPreservesValid(s, m.value, b.value, now);
      }
    case StaffReturn(l) => ReturnPreservesValid(s, l, None, now);
    case StaffDelete(b) => StaffDeleteBookPreservesValid(s, b);
  }

  /** In every store reachable from a valid one, no book has a negative
      number of available copies and no member holds two active loans of
      the same book. */
  lemma {:induction false} ReachableStoresAreValid(s: Store, requests: seq<(Action, Time)>)
    requires Valid(s)
    requires MembersKnown(s.users, requests)
    ensures Valid(Replay(s, requests))
    ensures forall b :: b in Replay(s, requests).books ==> Replay(s, requests).books[b].availableCopies >= 0
    ensures UniqueActiveLoans(Replay(s, requests).loans)
    decreases |requests|
  {
    if |requests| > 0 {
      assert MembersKnown(s.users, requests) ==> (requests[0].0.MemberCheckout? ==> requests[0].0.user in s.users);
      ApplyPreservesValid(s, requests[0].0, requests[0].1);
      var s' := Apply(s, requests[0].0, requests[0].1);
      assert MembersKnown(s'.users, requests[1..]) by {
        forall i | 0 <= i < |requests[1..]| && requests[1..][i].0.MemberCheckout?
          ensures requests[1..][i].0.user in s'.users
        {
          assert requests[1..][i] == requests[i + 1];
        }
      }
      ReachableStoresAreValid(s', requests[1..]);
    }
  }
}

=== FILE: wrappers.dfy ===
/** The Option and Result types shared by every module of the model. */
module Wrappers {

  /** A value that may be absent: a nullable column or an optional argument. */
  datatype Option<T> = None | Some(value: T)

  /** The outcome of an operation that either produces a value or raises. */
  datatype Result<T, E> = Ok(value: T) | Err(error: E)
}
